=== FILE: README.md ===
# Batch-job compiler: check inference, task list and descriptor lines

A Dafny model of the core of a batch-job compiler. The compiler reads a
pipeline configuration (a name, pipeline-wide `properties` and an ordered
list of tasks) and prepares what its templates need:

- **Key extraction** (`DataChecks.KeyNames`): the primary-key (`pk`) and
  history-key (`hk`) column names of a task's `source_to_target` list, in order.
- **Check inference** (`DataChecks.CreateDataCheckTasks`): for a CREATETABLE
  task, the row-count check, then a duplicate-key check when primary keys
  exist, then an open-history-item check when the table is also a HISTORY
  table. The dataset is `destination_dataset`, falling back to the pipeline's
  `dataset_publish`.
- **The list-building pass of `builddags`** (`BuildDags.Walk`,
  `BuildDags.BuildDags`): it walks the task list while appending inferred
  checks to that same list, skipping records already present. It also visits
  the appended checks. For every visited task it records `task_id` and
  `task_id.sql` in the task-id list and one `(task_id, dependency)` pair per
  dependency. The model adds the `cut` template variable, the length of
  `prefix` plus one. The source itself never gets that far (see "Left out"):
  `BuildDags.BuildDags` models the list building the loop is written to do,
  not a run of `builddags` to its end.
- **Table-task materialisation** (`TableTask.CreateTableTask`): it drops the
  audit columns `dw_created_dt` and `dw_last_modified_dt` from
  `source_to_target` when the task has no `sql`. It returns the descriptor
  line `UPPER(id)|id'|Y'\`.
- **String helpers** (`Helper`): `isnullorwhitespace`, `isnullorempty` and
  `ifnull` over a Python value that is `None`, a string, or something else.

Python dictionaries become records of `Option` fields: `None` means "key
absent". A task dictionary and its `parameters` dictionary also keep every
other key in a `rest` map (never one of the keys that has a field of its
own), so equal dictionaries give equal records. The records do collapse some
values (see "Left out"). An inferred check carries none of them: it has only
an id, the DATACHECK operator, `sql`, `params` and its one dependency
(`BuildDags.InferredCheckShape`). The one comparison the compiler makes, an
inferred check against a list entry at lib/buildbatch.py:63, is modelled
under the assumption about `todict` stated in "Left out". Every Python exception the code can raise becomes a `Failure` of
`Common.Result`, carrying the first error in Python's evaluation order.

Files: `common.dfy` (Option, Result, Error), `text.dfy` (strip, upper,
join), `helper.dfy`, `tasks.dfy` (data model), `checks.dfy`,
`tabletask.dfy`, `builddags.dfy`.

Notes on the source's behaviour that the model follows:

- Deduplication compares whole records (lib/buildbatch.py:63), not task ids.
  A hand-written task that reuses an inferred check's id but differs in any
  field therefore does not stop the inferred check from being appended.
  `BuildDags.RecordDedupAllowsRepeatedIds` exhibits such a configuration.
- The descriptor line is `UPPER(id)|id'|Y'\` (lib/buildbatch.py:227): a quote
  follows the id, the flag `Y` is followed by a quote, and the line ends in a
  backslash.
- A task carrying primary keys but no `target_type` raises `KeyError`
  (lib/buildbatch.py:183). A task without its own `destination_dataset` and a
  pipeline without `dataset_publish` raise `KeyError` even when the task has
  no keys (lib/buildbatch.py:149).

## Model

| member | source | states |
|---|---|---|
| Helper.IsNullOrWhitespace | lib/helper.py:14-34 | `None` is blank; a string is blank exactly when every character is whitespace (so the empty string too); any other value raises `ValueError` |
| Helper.IsNullOrEmpty | lib/helper.py:37-57 | `None` gives false; on strings it agrees with `isnullorwhitespace` (a whitespace test, not an emptiness test); other values raise `ValueError` |
| Helper.IfNull | lib/helper.py:60-74 | returns the default exactly when the value is blank and the value itself when it is not; raises when the blank test raises; a filled default makes the result filled |
| Helper.IfNullIdempotent | lib/helper.py:60-74 | applying `ifnull` again with the same string default changes nothing |
| Text.StripEmptyIffAllWhitespace | lib/helper.py:31-32 | `s.strip()` is empty exactly when `s` is empty or all whitespace, which is what the blank test relies on |
| Text.TrimLeft | lib/helper.py:31 | the leading-whitespace half of `strip()`: a suffix of the input, the part dropped is all whitespace, the rest does not start with whitespace |
| Text.TrimRight | lib/helper.py:31 | the trailing-whitespace half of `strip()`: a prefix of the input, the part dropped is all whitespace, the rest does not end with whitespace |
| Text.Strip | lib/helper.py:31 | `s.strip()` is the slice of `s` after its leading whitespace with only whitespace on either side, and it neither starts nor ends with whitespace |
| Text.Upper | lib/buildbatch.py:227 | `str.upper()` keeps the length and upper-cases each character on its own |
| Text.Join | lib/buildbatch.py:174 | `", ".join` of no keys is empty and of one key is that key; otherwise it starts with the first key followed by the separator (with `JoinSnoc` this fixes the whole join) |
| Text.JoinSnoc | lib/buildbatch.py:174 | `", ".join` puts exactly one separator between neighbouring keys, left to right |
| Text.JoinLength | lib/buildbatch.py:195 | the joined key list is as long as its keys plus one separator per neighbouring pair |
| DataChecks.KeyNames | lib/buildbatch.py:133-143 | succeeds exactly when every marked column has a name (else `KeyError`); yields one name per marked column, and a name occurs exactly when some marked column carries it |
| DataChecks.KeyNamesAppend | lib/buildbatch.py:133-143 | key extraction keeps column order: the keys of a concatenation are the keys of the first part followed by those of the second |
| DataChecks.TableKeys | lib/buildbatch.py:133-137 | a task without `source_to_target` has no primary keys |
| DataChecks.HistoryKeys | lib/buildbatch.py:139-143 | a task without `source_to_target` has no history keys |
| DataChecks.ResolveDataset | lib/buildbatch.py:146-150 | the dataset is `destination_dataset` when present, else `dataset_publish`, else `KeyError` |
| DataChecks.CheckTask | lib/buildbatch.py:152-157 | a synthesized check is a DATACHECK task with the given id, `sql` and `params`, depending on the source task alone, with no `source_to_target`, `destination_dataset`, `destination_table`, `target_type`, `block_data_check` or `description`, and no other keys |
| DataChecks.CreateDataCheckTasks | lib/buildbatch.py:118-203 | fails exactly on an unnamed key column, no resolvable dataset, no `destination_table`, or keys without `target_type`; otherwise 1 to 3 DATACHECK tasks each depending only on the source task: row-count first (id and SQL fixed by table and dataset); 1 task iff no primary keys; 3 iff keys and HISTORY; duplicate check keyed by the joined pk names, open-history check by the joined hk names |
| DataChecks.RowCountExample | lib/buildbatch.py:146-158 | with `dataset_publish = pub_ds`, table `dim_x` and no own dataset the row-count SQL is `select count(*) from pub_ds.dim_x` |
| DataChecks.DuplicateKeyExample | lib/buildbatch.py:162-179 | primary keys `id`, `region` give the duplicate check the `KEY` `id, region` |
| TableTask.StripAuditColumns | lib/buildbatch.py:220-224 | a column stays exactly when it is not an audit column, and as many columns disappear as there were audit columns |
| TableTask.StripAuditColumnsAppend | lib/buildbatch.py:220-224 | the filter keeps order: it distributes over concatenation |
| TableTask.StripAuditColumnsIdempotent | lib/buildbatch.py:220-224 | filtering twice is filtering once |
| TableTask.Descriptor | lib/buildbatch.py:227 | the descriptor line is the upper-cased id, a bar, the id itself, then the trailer (quote, bar, `Y`, quote, backslash); its length is twice the id's plus six |
| TableTask.ParseDescriptorRoundTrip | lib/buildbatch.py:227 | the task id can be read back from its descriptor line |
| TableTask.DescriptorInjective | lib/buildbatch.py:227 | distinct task ids give distinct descriptor lines |
| TableTask.CreateTableTask | lib/buildbatch.py:206-230 | fails exactly without `dataset_staging`, or without both `sql` and `source_to_target`; returns the descriptor of the task id; with `sql` leaves the task as it is, without it replaces only `source_to_target`, by the audit-free columns in their order |
| BuildDags.AppendNew | lib/buildbatch.py:62-64 | the list only grows; every inferred record ends up in it; an appended record comes from the inferred ones and equals no record before it |
| BuildDags.AppendNewConcat | lib/buildbatch.py:62-64 | appending the records of `a + b` is appending those of `a`, then those of `b` |
| BuildDags.AppendNewSnoc | lib/buildbatch.py:62-64 | records are considered one at a time in inference order: the next one is appended exactly when it equals no record of the list as grown so far |
| BuildDags.AppendNewPresent | lib/buildbatch.py:62-64 | records already present are not appended again |
| BuildDags.InferredChecks | lib/buildbatch.py:53-61 | a task that is not CREATETABLE, or has `block_data_check` truthy, contributes nothing; a visited task contributes only DATACHECK records |
| BuildDags.InferredCheckShape | lib/buildbatch.py:152-200 | every inferred check is a DATACHECK task depending on its source task alone, with no `source_to_target`, `destination_dataset`, `destination_table`, `target_type`, `block_data_check` or `description`, and no other keys |
| BuildDags.TaskDependencyPairs | lib/buildbatch.py:77 | one `(task_id, d)` pair per declared dependency `d`, in declaration order |
| BuildDags.TaskIds | lib/buildbatch.py:74-75 | two ids per task: the id, then the id with `.sql`, in task order |
| BuildDags.DependencyPairs | lib/buildbatch.py:77 | a pair is recorded exactly when its first part is a task's id and its second one of that task's dependencies |
| BuildDags.DependencyPairsAppend | lib/buildbatch.py:77 | the pair list keeps task order: pairs of a concatenation are those of the first part, then those of the second |
| BuildDags.Walk | lib/buildbatch.py:44-77 | the list-building pass terminates although it appends to the list it walks; it succeeds exactly when every task from the start position infers its checks without error, and otherwise raises the error of the first task whose inference raises; on success the result is the input with the checks of every task from the start position appended task by task in visiting order, and within a task in inference order, each skipped when an equal record is already there; so the input is a prefix of the result, every appended record is a fresh DATACHECK record inferred from a task visited before it, ids and pairs are those of every task from the start position (appended ones included), and every visited task's checks are in the final list |
| BuildDags.BuildDags | lib/buildbatch.py:34-92 | the modelled pass plus `cut`: succeeds exactly when `name` and `prefix` are present and every task's inference succeeds; a missing `name` raises `KeyError` first, then the first inference error, then `len(None)`'s `TypeError`; on success `cut` is the length of `prefix` plus one, the task list is the input with every task's inferred checks appended in visiting and inference order (equal records skipped), and the plan has the other properties of the pass over the whole list |
| BuildDags.WalkClosed | lib/buildbatch.py:55-64 | a list already holding every task's checks passes through unchanged |
| BuildDags.BuildDagsIdempotent | lib/buildbatch.py:55-64 | compiling the augmented configuration again yields the same plan: nothing is appended a second time |
| BuildDags.BlockedChecksAddNothing | lib/buildbatch.py:55-58 | with inference blocked or absent on every task the task list comes out unchanged, and the modelled pass fails only for a missing `name` or `prefix` |
| BuildDags.NoDuplicatesPreserved | lib/buildbatch.py:63-64 | a configuration without repeated records never acquires one |
| BuildDags.MissingDestinationTableFails | lib/buildbatch.py:151 | an unblocked CREATETABLE task without `destination_table` makes the modelled pass fail |
| BuildDags.RecordDedupAllowsRepeatedIds | lib/buildbatch.py:63 | a hand-written check with an inferred check's id but other content leaves two tasks with that id in the list the modelled pass builds |

## Left out

- Template loading and rendering, the two `.sh` files written, `datetime.now()`, the logger and `pop_stack` (lib/buildbatch.py:79-115): I/O and clock. `cut` is computed; the other template variables are not.
- `format_description` (lib/helper.py:82-122): it reads `line_prefix` before assigning it, so every call raises; no behaviour to model. Its `FileType` enum goes with it.
- The calls of `create_table_task` inside the loop (lib/buildbatch.py:66, 69, 72). `TableTask.CreateTableTask` models one call on a task; the modelled pass leaves all three calls out, and so it succeeds on configurations where the source raises:
  - Line 72 calls `create_table_task` on every visited task. A missing `dataset_staging` therefore raises `KeyError` (lib/buildbatch.py:217) on the first visit. A task with neither `sql` nor `source_to_target` raises `TypeError` (lib/buildbatch.py:222).
  - Lines 66 and 69 replace a CREATETABLE or TRUNCATETABLE task's parameters with the descriptor string. Line 72 then evaluates `task.parameters.keys()` on that string. For a plain attribute that raises `AttributeError` (the `Task` class is not part of this model), so no configuration with such a task gets past its visit.
- The rest of `builddags` after the loop: lib/buildbatch.py:89 calls `format_description`, which always raises (see the `format_description` item above). The source therefore never reaches line 92, where `cut` is computed, and never returns. `BuildDags.BuildDags` computes `cut` as line 92 is written.
- `create_sql_file` and the `Task`, `SQLDataCheckTask`, `SQLDataCheckParameter` and `todict` definitions of `lib.baseclasses` are not part of this model. SQL file generation is an external effect. The row-count check's default `params` is modelled as absent.
- How `todict` (lib.baseclasses, not part of this model) renders an inferred check. The model assumes it emits exactly `task_id`, `operator`, `parameters` and `dependencies`, with the operator as the string `"DATACHECK"` and `parameters` as a dictionary of `sql` and `params`. Under that assumption, a configuration entry equal in every modelled field to an inferred check suppresses the append at lib/buildbatch.py:63. If `todict` kept the `TaskOperator.DATACHECK` enum member (lib/buildbatch.py:154), no entry loaded from the configuration, whose operators are strings (lib/buildbatch.py:53), could ever equal an inferred check.
- The in-place update of the caller's configuration: lib/buildbatch.py:64 appends to the caller's own `config["tasks"]`. When a later task's check inference raises, that list already holds the checks appended for the earlier tasks. `BuildDags.Walk` and `BuildDags.BuildDags` return a `Failure` that carries no list, so this partially updated list is not represented.
- A `source_to_target` entry that is present but `null` (iterating it raises): the model treats it as absent.
- Tasks whose `parameters` or `dependencies` are missing or `null`, and a `task_id` that is not a string: the model's task record always has them.
- A configuration without `tasks` (`KeyError` at lib/buildbatch.py:44) or without `properties` (`KeyError` at lib/buildbatch.py:60, raised on the first unblocked CREATETABLE task): the model's `Config` record always has both.
- Values the task records collapse: a column keeps only whether `pk` and `hk` are present, not their values; `block_data_check` keeps only its truthiness; the `rest` and `params` maps hold string values only, so nested or non-string values are not represented. Two dictionaries differing only in such values give equal records; no inferred check carries any of them.
- Python truthiness of `block_data_check` is abstracted to a boolean. Other value types of configuration entries (numbers where strings are expected) are not modelled.
- Text.Upper: ASCII letters only; Python's `str.upper()` also maps other letters, some to several characters.


=== FILE: builddags.dfy ===
/** The list-building part of `builddags`: the pass over `config["tasks"]`
    that appends inferred check tasks to the very list it is walking, and
    collects the task-id list and the dependency pairs for the templates. */
module BuildDags {
  import opened Common
  import opened Tasks
  import opened DataChecks

  /** lib/buildbatch.py:62-64: append each record of `ds` unless an equal
      record is already in the (growing) list. The list only grows; every
      record of `ds` ends up in it; what is appended comes from `ds` and never
      equals a record already present. `AppendNewSnoc` fixes the order. */
  function AppendNew(list: seq<Task>, ds: seq<Task>): (r: seq<Task>)
    ensures list <= r
    ensures forall d :: d in ds ==> d in r
    ensures forall k :: |list| <= k < |r| ==> r[k] in ds && r[k] !in r[..k]
    decreases |ds|
  {
    if |ds| == 0 then list
    else if ds[0] in list then AppendNew(list, ds[1..])
    else
      var r := AppendNew(list + [ds[0]], ds[1..]);
      assert r[..|list|] == list;
      assert r[|list|] == ds[0];
      r
  }

  /** Appending `a` then `b` is appending `a + b`. */
  lemma {:induction false} AppendNewConcat(list: seq<Task>, a: seq<Task>, b: seq<Task>)
    ensures AppendNew(list, a + b) == AppendNew(AppendNew(list, a), b)
    decreases |a|
  {
    if |a| == 0 {
      assert a + b == b;
    } else {
      assert (a + b)[0] == a[0];
      assert (a + b)[1..] == a[1..] + b;
      if a[0] in list {
        AppendNewConcat(list, a[1..], b);
      } else {
        AppendNewConcat(list + [a[0]], a[1..], b);
      }
    }
  }

  /** The loop of lib/buildbatch.py:62-64 one record at a time, in the order
      of `ds`: the last record is appended exactly when it equals none of the
      list as grown by the records before it. */
  lemma AppendNewSnoc(list: seq<Task>, ds: seq<Task>, d: Task)
    ensures AppendNew(list, ds + [d]) == (var l := AppendNew(list, ds); if d in l then l else l + [d])
  {
    AppendNewConcat(list, ds, [d]);
  }

  /** Records already present are not appended again. */
  lemma {:induction false} AppendNewPresent(list: seq<Task>, ds: seq<Task>)
    requires forall d :: d in ds ==> d in list
    ensures AppendNew(list, ds) == list
    decreases |ds|
  {
    if |ds| > 0 {
      assert ds[0] in list;
      AppendNewPresent(list, ds[1..]);
    }
  }

  /** lib/buildbatch.py:53-61: the checks a visited task contributes. Only a CREATETABLE
      task whose `block_data_check` is absent or falsy runs check inference. */
  function InferredChecks(t: Task, props: Properties): (r: Result<seq<Task>>)
    ensures t.operator != CreateTable ==> r == Success([])
    ensures t.parameters.blockDataCheck == Some(true) ==> r == Success([])
    ensures r.Success? ==> forall i :: 0 <= i < |r.value| ==> r.value[i].operator == DataCheck
  {
    if InfersChecks(t) then CreateDataCheckTasks(t, props) else Success([])
  }

  /** lib/buildbatch.py:77: one `(task_id, d)` pair per declared dependency, in order. */
  function TaskDependencyPairs(t: Task): (r: seq<(string, string)>)
    ensures |r| == |t.dependencies|
    ensures forall j :: 0 <= j < |r| ==> r[j] == (t.taskId, t.dependencies[j])
  {
    seq(|t.dependencies|, j requires 0 <= j < |t.dependencies| => (t.taskId, t.dependencies[j]))
  }

  /** Reference definition of the task-id list of a task sequence: the id
      then the id with `.sql` appended, per task, in order. */
  function TaskIds(ts: seq<Task>): (r: seq<string>)
    ensures |r| == 2 * |ts|
    ensures forall k :: 0 <= k < |ts| ==> r[2 * k] == ts[k].taskId && r[2 * k + 1] == ts[k].taskId + ".sql"
  {
    if |ts| == 0 then []
    else
      var rest := TaskIds(ts[1..]);
      assert forall k :: 1 <= k < |ts| ==> ts[k] == ts[1..][k - 1];
      [ts[0].taskId, ts[0].taskId + ".sql"] + rest
  }

  /** Reference definition of the dependency-pair list of a task sequence. */
  function DependencyPairs(ts: seq<Task>): (r: seq<(string, string)>)
    ensures forall p :: p in r <==> exists k :: 0 <= k < |ts| && p.0 == ts[k].taskId && p.1 in ts[k].dependencies
  {
    if |ts| == 0 then []
    else
      var rest := DependencyPairs(ts[1..]);
      assert forall k :: 1 <= k < |ts| ==> ts[k] == ts[1..][k - 1];
      assert forall p :: p in TaskDependencyPairs(ts[0]) <==> p.0 == ts[0].taskId && p.1 in ts[0].dependencies by {
        forall p: (string, string) | p.0 == ts[0].taskId && p.1 in ts[0].dependencies
          ensures p in TaskDependencyPairs(ts[0])
        {
          var j :| 0 <= j < |ts[0].dependencies| && ts[0].dependencies[j] == p.1;
          assert TaskDependencyPairs(ts[0])[j] == p;
        }
      }
      TaskDependencyPairs(ts[0]) + rest
  }

  /** The pairs keep task order: those of a concatenation are those of the
      first part followed by those of the second. */
  lemma {:induction false} DependencyPairsAppend(a: seq<Task>, b: seq<Task>)
    ensures DependencyPairs(a + b) == DependencyPairs(a) + DependencyPairs(b)
  {
    if |a| == 0 {
      assert a + b == b;
    } else {
      assert (a + b)[1..] == a[1..] + b;
      assert (a + b)[0] == a[0];
      DependencyPairsAppend(a[1..], b);
    }
  }

  /** The checks `t` implies were inferred without error and are all in `list`. */
  predicate ChecksPresent(t: Task, props: Properties, list: seq<Task>) {
    var c := InferredChecks(t, props);
    c.Success? && forall d :: d in c.value ==> d in list
  }

  /** The checks inferred from the tasks of `ts`, task by task and, within a
      task, in inference order. A task whose inference raises contributes
      nothing here; the pass never gets past such a task. */
  function AllChecks(ts: seq<Task>, props: Properties): seq<Task> {
    if |ts| == 0 then []
    else
      var c := InferredChecks(ts[0], props);
      (if c.Success? then c.value else []) + AllChecks(ts[1..], props)
  }

  /** The checks of a concatenation are those of its first part followed by
      those of its second. */
  lemma {:induction false} AllChecksAppend(a: seq<Task>, b: seq<Task>, props: Properties)
    ensures AllChecks(a + b, props) == AllChecks(a, props) + AllChecks(b, props)
  {
    if |a| == 0 {
      assert a + b == b;
    } else {
      assert (a + b)[0] == a[0];
      assert (a + b)[1..] == a[1..] + b;
      AllChecksAppend(a[1..], b, props);
    }
  }

  /** Tasks that infer no checks contribute none. */
  lemma {:induction false} AllChecksNone(ts: seq<Task>, props: Properties)
    requires forall k :: 0 <= k < |ts| ==> InferredChecks(ts[k], props) == Success([])
    ensures AllChecks(ts, props) == []
  {
    if |ts| > 0 {
      AllChecksNone(ts[1..], props);
    }
  }

  /** `d` is one of the checks inferred from `t`. */
  predicate InferredBy(t: Task, props: Properties, d: Task) {
    var c := InferredChecks(t, props);
    c.Success? && d in c.value
  }

  /** An inferred check carries no `source_to_target`, no `block_data_check`
      and no key beyond those check inference sets, so comparing it with a
      list entry never depends on the values the task records leave out. */
  lemma InferredCheckShape(t: Task, props: Properties, d: Task)
    requires InferredBy(t, props, d)
    ensures d.operator == DataCheck && d.dependencies == [t.taskId]
    ensures d.parameters.sourceToTarget.None? && d.parameters.blockDataCheck.None?
    ensures d.parameters.destinationDataset.None? && d.parameters.destinationTable.None?
    ensures d.parameters.targetType.None? && d.description.None?
    ensures d.parameters.rest == map[] && d.rest == map[]
  {
  }

  /** `e` is the error of the first task from position `i` on whose check
      inference raises, all tasks before it inferring without error. */
  predicate FirstFailure(tasks: seq<Task>, props: Properties, i: nat, e: Error) {
    exists k :: i <= k < |tasks| && InferredChecks(tasks[k], props) == Failure(e)
      && forall j :: i <= j < k ==> InferredChecks(tasks[j], props).Success?
  }

  /** Visiting one task can only lower the number of CREATETABLE tasks still
      ahead: the records appended behind it are all DATACHECK tasks. */
  lemma WalkStepMeasure(tasks: seq<Task>, tasks': seq<Task>, i: nat)
    requires i < |tasks| && tasks <= tasks'
    requires forall k :: |tasks| <= k < |tasks'| ==> tasks'[k].operator == DataCheck
    ensures CountCreateTable(tasks'[i + 1..]) + (if tasks[i].operator == CreateTable then 1 else 0)
         == CountCreateTable(tasks[i..])
  {
    assert tasks'[i + 1..] == tasks[i + 1..] + tasks'[|tasks|..];
    CountCreateTableAppend(tasks[i + 1..], tasks'[|tasks|..]);
    CountCreateTableNone(tasks'[|tasks|..]);
    assert tasks[i..][1..] == tasks[i + 1..];
  }

  /** What one pass over the task list accumulates. */
  datatype Pass = Pass(tasks: seq<Task>, taskIds: seq<string>, dependencyPairs: seq<(string, string)>)

  /** The records of `ts` from position `n` on are DATACHECK records, each
      equal to none before it. */
  predicate FreshChecks(ts: seq<Task>, n: nat) {
    forall k :: n <= k < |ts| ==> ts[k].operator == DataCheck && ts[k] !in ts[..k]
  }

  /** Every record of `ts` from position `n` on was inferred from a record at
      a position between `i` and its own. */
  predicate InferredFrom(ts: seq<Task>, props: Properties, n: nat, i: nat) {
    forall k :: n <= k < |ts| ==> exists j :: i <= j < k && InferredBy(ts[j], props, ts[k])
  }

  /** Every record of `ts` from position `i` on had its checks inferred, and
      they are all in `ts`. */
  predicate AllChecksPresent(ts: seq<Task>, props: Properties, i: nat) {
    forall k :: i <= k < |ts| ==> ChecksPresent(ts[k], props, ts)
  }

  /** What a pass from position `i` with accumulators `taskIds` and `pairs`
      promises of its outcome `p`: the list only grew, and only by DATACHECK
      records equal to none before them, each inferred from a task visited
      before it; the accumulated ids and pairs are those of every task from `i`
      on, appended ones included; and every one of those tasks had its checks
      inferred and present in the final list. */
  predicate PassFrom(tasks: seq<Task>, props: Properties, i: nat, taskIds: seq<string>,
                     pairs: seq<(string, string)>, p: Pass)
    requires i <= |tasks|
  {
    && tasks <= p.tasks
    && p.taskIds == taskIds + TaskIds(p.tasks[i..])
    && p.dependencyPairs == pairs + DependencyPairs(p.tasks[i..])
    && FreshChecks(p.tasks, |tasks|)
    && InferredFrom(p.tasks, props, |tasks|, i)
    && AllChecksPresent(p.tasks, props, i)
  }

  /** Accumulating the ids and pairs of the task at `i` and then those of the
      tasks after it accumulates those of the tasks from `i` on. */
  lemma SuffixCons(ts: seq<Task>, i: nat, taskIds: seq<string>, pairs: seq<(string, string)>)
    requires i < |ts|
    ensures (taskIds + [ts[i].taskId, ts[i].taskId + ".sql"]) + TaskIds(ts[i + 1..]) == taskIds + TaskIds(ts[i..])
    ensures (pairs + TaskDependencyPairs(ts[i])) + DependencyPairs(ts[i + 1..]) == pairs + DependencyPairs(ts[i..])
  {
    assert ts[i..][1..] == ts[i + 1..];
    assert TaskIds(ts[i..]) == [ts[i].taskId, ts[i].taskId + ".sql"] + TaskIds(ts[i + 1..]);
    assert DependencyPairs(ts[i..]) == TaskDependencyPairs(ts[i]) + DependencyPairs(ts[i + 1..]);
  }

  /** Records appended by the visit itself are fresh DATACHECK records in the
      final list as well. */
  lemma AppendedStayFresh(tasks: seq<Task>, added: seq<Task>, ts: seq<Task>)
    requires forall i :: 0 <= i < |added| ==> added[i].operator == DataCheck
    requires AppendNew(tasks, added) <= ts
    requires FreshChecks(ts, |AppendNew(tasks, added)|)
    ensures FreshChecks(ts, |tasks|)
  {
    var tasks' := AppendNew(tasks, added);
    forall k | |tasks| <= k < |ts|
      ensures ts[k].operator == DataCheck && ts[k] !in ts[..k]
    {
      if k < |tasks'| {
        assert ts[..k] == tasks'[..k];
        assert ts[k] == tasks'[k];
      }
    }
  }

  /** Records appended by the visit of `tasks[i]` were inferred from it; those
      appended later were inferred from a task after it. */
  lemma AppendedInferred(tasks: seq<Task>, props: Properties, i: nat, added: seq<Task>, ts: seq<Task>)
    requires i < |tasks|
    requires InferredChecks(tasks[i], props) == Success(added)
    requires AppendNew(tasks, added) <= ts
    requires InferredFrom(ts, props, |AppendNew(tasks, added)|, i + 1)
    ensures InferredFrom(ts, props, |tasks|, i)
  {
    var tasks' := AppendNew(tasks, added);
    forall k | |tasks| <= k < |ts|
      ensures exists j :: i <= j < k && InferredBy(ts[j], props, ts[k])
    {
      if k < |tasks'| {
        assert ts[k] == tasks'[k] && ts[i] == tasks[i];
        assert InferredBy(ts[i], props, ts[k]);
      } else {
        assert |tasks'| <= k < |ts|;
        var j :| i + 1 <= j < k && InferredBy(ts[j], props, ts[k]);
        assert InferredBy(ts[j], props, ts[k]);
      }
    }
  }

  /** The visited task's checks are in the final list too. */
  lemma VisitedPresent(tasks: seq<Task>, props: Properties, i: nat, added: seq<Task>, ts: seq<Task>)
    requires i < |tasks|
    requires InferredChecks(tasks[i], props) == Success(added)
    requires AppendNew(tasks, added) <= ts
    requires AllChecksPresent(ts, props, i + 1)
    ensures AllChecksPresent(ts, props, i)
  {
    var tasks' := AppendNew(tasks, added);
    assert ts[i] == tasks[i];
    forall d | d in added
      ensures d in ts
    {
      assert d in tasks';
    }
    assert ChecksPresent(ts[i], props, ts);
  }

  /** One visit: if the rest of the pass, started on the list with the
      visited task's checks appended, keeps its promise, so does the whole. */
  lemma WalkStep(tasks: seq<Task>, props: Properties, i: nat, taskIds: seq<string>,
                 pairs: seq<(string, string)>, added: seq<Task>, p: Pass)
    requires i < |tasks|
    requires InferredChecks(tasks[i], props) == Success(added)
    requires PassFrom(AppendNew(tasks, added), props, i + 1,
                      taskIds + [tasks[i].taskId, tasks[i].taskId + ".sql"],
                      pairs + TaskDependencyPairs(tasks[i]), p)
    ensures PassFrom(tasks, props, i, taskIds, pairs, p)
  {
    var ts := p.tasks;
    assert ts[i] == tasks[i];
    SuffixCons(ts, i, taskIds, pairs);
    AppendedStayFresh(tasks, added, ts);
    AppendedInferred(tasks, props, i, added, ts);
    VisitedPresent(tasks, props, i, added, ts);
  }

  /** The checks the visit of `tasks[i]` appends infer no checks themselves. */
  lemma AppendedSucceed(tasks: seq<Task>, props: Properties, i: nat, added: seq<Task>, tasks': seq<Task>)
    requires i < |tasks|
    requires InferredChecks(tasks[i], props) == Success(added)
    requires tasks' == AppendNew(tasks, added)
    ensures forall k :: |tasks| <= k < |tasks'| ==> InferredChecks(tasks'[k], props) == Success([])
  {
    forall k | |tasks| <= k < |tasks'|
      ensures InferredChecks(tasks'[k], props) == Success([])
    {
      var m :| 0 <= m < |added| && added[m] == tasks'[k];
    }
  }

  /** How the outcome of the rest of the pass, started on the list with the
      checks of `tasks[i]` appended, decides success and the first error. */
  lemma WalkOutcome(tasks: seq<Task>, props: Properties, i: nat, tasks': seq<Task>, r: Result<Pass>)
    requires i < |tasks|
    requires InferredChecks(tasks[i], props).Success?
    requires tasks <= tasks'
    requires forall k :: |tasks| <= k < |tasks'| ==> InferredChecks(tasks'[k], props) == Success([])
    requires r.Success? <==> forall k :: i + 1 <= k < |tasks'| ==> InferredChecks(tasks'[k], props).Success?
    requires r.Failure? ==> FirstFailure(tasks', props, i + 1, r.error)
    ensures r.Success? <==> forall k :: i <= k < |tasks| ==> InferredChecks(tasks[k], props).Success?
    ensures r.Failure? ==> FirstFailure(tasks, props, i, r.error)
  {
    if r.Success? {
      forall k | i <= k < |tasks|
        ensures InferredChecks(tasks[k], props).Success?
      {
        if k > i {
          assert tasks'[k] == tasks[k];
        }
      }
    } else {
      var k :| i + 1 <= k < |tasks'| && InferredChecks(tasks'[k], props) == Failure(r.error)
        && forall j :: i + 1 <= j < k ==> InferredChecks(tasks'[j], props).Success?;
      assert k < |tasks|;
      assert tasks'[k] == tasks[k];
      forall j | i <= j < k
        ensures InferredChecks(tasks[j], props).Success?
      {
        if j > i {
          assert tasks'[j] == tasks[j];
        }
      }
      assert FirstFailure(tasks, props, i, r.error);
    }
  }

  /** The list the rest of the pass builds, started on the list with the
      checks of `tasks[i]` appended, is the one the pass from `i` builds:
      the checks of every task from `i` on, appended in order. */
  lemma WalkOrder(tasks: seq<Task>, props: Properties, i: nat, added: seq<Task>, tasks': seq<Task>)
    requires i < |tasks|
    requires InferredChecks(tasks[i], props) == Success(added)
    requires tasks' == AppendNew(tasks, added)
    requires forall k :: |tasks| <= k < |tasks'| ==> InferredChecks(tasks'[k], props) == Success([])
    ensures AppendNew(tasks', AllChecks(tasks'[i + 1..], props)) == AppendNew(tasks, AllChecks(tasks[i..], props))
  {
    AppendedInferNothing(tasks, props, i, tasks');
    AllChecksCons(tasks, props, i);
    AppendNewConcat(tasks, added, AllChecks(tasks[i + 1..], props));
  }

  /** Records appended behind the tasks after `i` that infer no checks add
      none to theirs. */
  lemma AppendedInferNothing(tasks: seq<Task>, props: Properties, i: nat, tasks': seq<Task>)
    requires i < |tasks| && tasks <= tasks'
    requires forall k :: |tasks| <= k < |tasks'| ==> InferredChecks(tasks'[k], props) == Success([])
    ensures AllChecks(tasks'[i + 1..], props) == AllChecks(tasks[i + 1..], props)
  {
    var later := tasks'[|tasks|..];
    assert tasks'[i + 1..] == tasks[i + 1..] + later;
    AllChecksAppend(tasks[i + 1..], later, props);
    forall k | 0 <= k < |later|
      ensures InferredChecks(later[k], props) == Success([])
    {
      assert later[k] == tasks'[|tasks| + k];
    }
    AllChecksNone(later, props);
    assert AllChecks(tasks[i + 1..], props) + [] == AllChecks(tasks[i + 1..], props);
  }

  /** The checks of the tasks from `i` on are those of the task at `i`
      followed by those of the tasks after it. */
  lemma AllChecksCons(ts: seq<Task>, props: Properties, i: nat)
    requires i < |ts| && InferredChecks(ts[i], props).Success?
    ensures AllChecks(ts[i..], props) == InferredChecks(ts[i], props).value + AllChecks(ts[i + 1..], props)
  {
    assert ts[i..][0] == ts[i] && ts[i..][1..] == ts[i + 1..];
  }

  /** lib/buildbatch.py:44-77 from position `i` on: the list building of the
      `for t in config["tasks"]` loop, which also visits every record it
      appends. It succeeds exactly when every task from `i` on infers its
      checks without error, and then keeps the promise of `PassFrom`;
      otherwise it raises the error of the first task whose inference raises. */
  function Walk(tasks: seq<Task>, props: Properties, i: nat, taskIds: seq<string>, pairs: seq<(string, string)>)
    : (r: Result<Pass>)
    requires i <= |tasks|
    ensures r.Success? <==> forall k :: i <= k < |tasks| ==> InferredChecks(tasks[k], props).Success?
    ensures r.Failure? ==> FirstFailure(tasks, props, i, r.error)
    ensures r.Success? ==> PassFrom(tasks, props, i, taskIds, pairs, r.value)
    ensures r.Success? ==> r.value.tasks == AppendNew(tasks, AllChecks(tasks[i..], props))
    decreases CountCreateTable(tasks[i..]), |tasks| - i
  {
    if i == |tasks| then
      assert tasks[i..] == [];
      Success(Pass(tasks, taskIds, pairs))
    else
      var t := tasks[i];
      var added :- InferredChecks(t, props);
      var tasks' := AppendNew(tasks, added);
      WalkStepMeasure(tasks, tasks', i);
      var r := Walk(tasks', props, i + 1, taskIds + [t.taskId, t.taskId + ".sql"], pairs + TaskDependencyPairs(t));
      AppendedSucceed(tasks, props, i, added, tasks');
      WalkOutcome(tasks, props, i, tasks', r);
      if r.Failure? then r
      else
        WalkStep(tasks, props, i, taskIds, pairs, added, r.value);
        WalkOrder(tasks, props, i, added, tasks');
        r
  }

  /** The artefacts of `builddags` before rendering: the augmented task list,
      the task-id list, the dependency pairs and the `cut` template variable. */
  datatype BatchPlan = BatchPlan(tasks: seq<Task>, taskIds: seq<string>, dependencyPairs: seq<(string, string)>, cut: int)

  /** The pass over a whole list, started with empty accumulators. */
  lemma WalkFromStart(tasks: seq<Task>, props: Properties, p: Pass)
    requires Walk(tasks, props, 0, [], []) == Success(p)
    ensures tasks <= p.tasks
    ensures p.tasks == AppendNew(tasks, AllChecks(tasks, props))
    ensures p.taskIds == TaskIds(p.tasks)
    ensures p.dependencyPairs == DependencyPairs(p.tasks)
    ensures FreshChecks(p.tasks, |tasks|)
    ensures InferredFrom(p.tasks, props, |tasks|, 0)
    ensures AllChecksPresent(p.tasks, props, 0)
  {
    assert p.tasks[0..] == p.tasks;
    assert tasks[0..] == tasks;
  }

  /** The modelled list-building pass of `builddags` with the `cut` template
      variable, without the `create_table_task` calls inside the loop, the
      rendering and the file output: `config["name"]` must be present, check
      inference must not raise on any task, and `cut` is the length of the
      `prefix` property plus one (`len(None)` raises when it is missing). */
  function BuildDags(config: Config): (r: Result<BatchPlan>)
    ensures r.Success? <==>
      && config.name.Some?
      && config.properties.prefix.Some?
      && forall k :: 0 <= k < |config.tasks| ==> InferredChecks(config.tasks[k], config.properties).Success?
    ensures config.name.None? ==> r == Failure(KeyError("name"))
    ensures config.name.Some? && (exists k :: 0 <= k < |config.tasks| && InferredChecks(config.tasks[k], config.properties).Failure?)
        ==> r.Failure? && FirstFailure(config.tasks, config.properties, 0, r.error)
    ensures config.name.Some? && config.properties.prefix.None?
            && (forall k :: 0 <= k < |config.tasks| ==> InferredChecks(config.tasks[k], config.properties).Success?)
        ==> r == Failure(TypeError("object of type 'NoneType' has no len()"))
    ensures r.Success? ==>
      && config.name.Some?
      && config.properties.prefix.Some?
      && r.value.cut == |config.properties.prefix.value| + 1
      && config.tasks <= r.value.tasks
      && r.value.tasks == AppendNew(config.tasks, AllChecks(config.tasks, config.properties))
      && r.value.taskIds == TaskIds(r.value.tasks)
      && r.value.dependencyPairs == DependencyPairs(r.value.tasks)
      && FreshChecks(r.value.tasks, |config.tasks|)
      && InferredFrom(r.value.tasks, config.properties, |config.tasks|, 0)
      && AllChecksPresent(r.value.tasks, config.properties, 0)
  {
    if config.name.None? then Failure(KeyError("name"))
    else
      var pass :- Walk(config.tasks, config.properties, 0, [], []);
      WalkFromStart(config.tasks, config.properties, pass);
      match config.properties.prefix
      case None => Failure(TypeError("object of type 'NoneType' has no len()"))
      case Some(prefix) =>
        Success(BatchPlan(pass.tasks, pass.taskIds, pass.dependencyPairs, |prefix| + 1))
  }

  /** A list in which every task's checks are already present passes through
      the walk unchanged. */
  lemma {:induction false} WalkClosed(tasks: seq<Task>, props: Properties, i: nat, taskIds: seq<string>, pairs: seq<(string, string)>)
    requires i <= |tasks|
    requires forall k :: i <= k < |tasks| ==> ChecksPresent(tasks[k], props, tasks)
    ensures Walk(tasks, props, i, taskIds, pairs).Success?
    ensures Walk(tasks, props, i, taskIds, pairs).value.tasks == tasks
    decreases |tasks| - i
  {
    if i < |tasks| {
      var t := tasks[i];
      var added := InferredChecks(t, props).value;
      assert ChecksPresent(t, props, tasks);
      AppendNewPresent(tasks, added);
      WalkClosed(tasks, props, i + 1, taskIds + [t.taskId, t.taskId + ".sql"], pairs + TaskDependencyPairs(t));
    }
  }

  /** Compiling an already-compiled configuration again changes nothing: no
      task is added a second time, and the ids, pairs and `cut` are the same. */
  lemma BuildDagsIdempotent(config: Config)
    requires BuildDags(config).Success?
    ensures BuildDags(config.(tasks := BuildDags(config).value.tasks)) == BuildDags(config)
  {
    var plan := BuildDags(config).value;
    var config' := config.(tasks := plan.tasks);
    WalkClosed(plan.tasks, config.properties, 0, [], []);
    assert plan.tasks[0..] == plan.tasks;
  }

  /** With check inference switched off on every task (or no CREATETABLE task
      at all) the modelled pass succeeds exactly when `name` and `prefix` are
      present, and the task list comes out exactly as it went in. */
  lemma BlockedChecksAddNothing(config: Config)
    requires forall k :: 0 <= k < |config.tasks| ==> !InfersChecks(config.tasks[k])
    ensures BuildDags(config).Success? <==> config.name.Some? && config.properties.prefix.Some?
    ensures BuildDags(config).Success? ==> BuildDags(config).value.tasks == config.tasks
  {
    WalkClosed(config.tasks, config.properties, 0, [], []);
  }

  /** A configuration without repeated records never gets one. */
  lemma NoDuplicatesPreserved(config: Config)
    requires BuildDags(config).Success?
    requires forall j, k :: 0 <= j < k < |config.tasks| ==> config.tasks[j] != config.tasks[k]
    ensures var ts := BuildDags(config).value.tasks;
      forall j, k :: 0 <= j < k < |ts| ==> ts[j] != ts[k]
  {
    var ts := BuildDags(config).value.tasks;
    forall j, k | 0 <= j < k < |ts|
      ensures ts[j] != ts[k]
    {
      if k >= |config.tasks| {
        assert ts[j] in ts[..k];
      } else {
        assert ts[j] == config.tasks[j] && ts[k] == config.tasks[k];
      }
    }
  }

  /** A CREATETABLE task without `destination_table` (and with inference not
      blocked) makes the modelled pass fail. */
  lemma MissingDestinationTableFails(config: Config, k: nat)
    requires k < |config.tasks|
    requires InfersChecks(config.tasks[k])
    requires config.tasks[k].parameters.destinationTable.None?
    ensures BuildDags(config).Failure?
  {
    assert InferredChecks(config.tasks[k], config.properties).Failure?;
  }

  /** A sample configuration for the lemma below: a CREATETABLE task `t`
      without keys, followed by a hand-written check that reuses the id of
      the row-count check inferred for `t` but runs another query. */
  const SampleCreate := Task("t", CreateTable, Params(Some([]), Some("d"), Some("t"), None, None, None, None, map[]), [], None, map[])
  const SampleManual := Task("t_data_check_row_count", DataCheck,
                             Params(None, None, None, None, None, Some("select 1"), None, map[]), ["t"], None, map[])
  const SampleProperties := Properties(Some("s"), Some("p"), Some("x_"))
  const SampleRowCount := CheckTask("t" + ROW_COUNT_SUFFIX, RowCountSql("d", "t"), None, SampleCreate)

  lemma SampleInference()
    ensures InferredChecks(SampleCreate, SampleProperties) == Success([SampleRowCount])
  {
    assert CountMarked([], Primary) == 0;
  }

  lemma SampleRowCountDiffers()
    ensures SampleRowCount.taskId == SampleManual.taskId
    ensures SampleRowCount != SampleManual
  {
    assert |RowCountSql("d", "t")| != |"select 1"|;
  }

  /** Deduplication compares whole records, not ids: a hand-written check that
      reuses an inferred check's id but differs from it in any field does not
      stop the inferred one from being appended, so the id then occurs twice
      in the list the modelled pass builds. */
  lemma RecordDedupAllowsRepeatedIds()
    ensures
      var config := Config(Some("job"), SampleProperties, [SampleCreate, SampleManual]);
      && BuildDags(config).Success?
      && |BuildDags(config).value.tasks| == 3
      && BuildDags(config).value.tasks[1].taskId == BuildDags(config).value.tasks[2].taskId
  {
    var props := SampleProperties;
    SampleInference();
    SampleRowCountDiffers();
    var tasks' := [SampleCreate, SampleManual, SampleRowCount];
    assert AppendNew([SampleCreate, SampleManual], [SampleRowCount]) == tasks';
    assert ChecksPresent(SampleManual, props, tasks');
    assert ChecksPresent(SampleRowCount, props, tasks');
    var ids := [] + [SampleCreate.taskId, SampleCreate.taskId + ".sql"];
    var pairs := [] + TaskDependencyPairs(SampleCreate);
    assert Walk([SampleCreate, SampleManual], props, 0, [], []) == Walk(tasks', props, 1, ids, pairs);
    WalkClosed(tasks', props, 1, ids, pairs);
  }
}

=== FILE: checks.dfy ===
/** Key extraction and check inference (`create_data_check_tasks`): from one
    CREATETABLE task, the row-count check, the duplicate-key check and the
    open-history-item check it implies. */
module DataChecks {
  import opened Common
  import opened Text
  import opened Tasks

  /** Which marker a key column carries: `pk` (primary) or `hk` (history). */
  datatype KeyKind = Primary | History

  predicate Marked(c: Column, kind: KeyKind) {
    match kind
    case Primary => c.pk
    case History => c.hk
  }

  /** Every column carrying the marker also has a `name`. */
  predicate Named(cols: seq<Column>, kind: KeyKind) {
    forall i :: 0 <= i < |cols| && Marked(cols[i], kind) ==> cols[i].name.Some?
  }

  /** The number of columns carrying the marker. */
  function CountMarked(cols: seq<Column>, kind: KeyKind): nat {
    if |cols| == 0 then 0
    else (if Marked(cols[0], kind) then 1 else 0) + CountMarked(cols[1..], kind)
  }

  /** Some column carrying the marker is named `n`. */
  predicate HasKey(cols: seq<Column>, kind: KeyKind, n: string) {
    exists i :: 0 <= i < |cols| && Marked(cols[i], kind) && cols[i].name == Some(n)
  }

  /** How `Named` and `HasKey` split over the first column and the rest. */
  lemma NamedAndHasKeyCons(cols: seq<Column>, kind: KeyKind)
    requires |cols| > 0
    ensures Named(cols, kind) <==> (Marked(cols[0], kind) ==> cols[0].name.Some?) && Named(cols[1..], kind)
    ensures forall n :: HasKey(cols, kind, n) <==>
      (Marked(cols[0], kind) && cols[0].name == Some(n)) || HasKey(cols[1..], kind, n)
  {
    forall n | HasKey(cols[1..], kind, n)
      ensures HasKey(cols, kind, n)
    {
      var i :| 0 <= i < |cols[1..]| && Marked(cols[1..][i], kind) && cols[1..][i].name == Some(n);
      assert cols[i + 1] == cols[1..][i];
    }
    forall n | HasKey(cols, kind, n) && !(Marked(cols[0], kind) && cols[0].name == Some(n))
      ensures HasKey(cols[1..], kind, n)
    {
      var i :| 0 <= i < |cols| && Marked(cols[i], kind) && cols[i].name == Some(n);
      assert cols[1..][i - 1] == cols[i];
    }
    if (Marked(cols[0], kind) ==> cols[0].name.Some?) && Named(cols[1..], kind) {
      forall i | 0 <= i < |cols| && Marked(cols[i], kind)
        ensures cols[i].name.Some?
      {
        if i > 0 { assert cols[i] == cols[1..][i - 1]; }
      }
    }
  }

  /** The list comprehension `[f["name"] for f in cols if marker in f.keys()]`:
      one name per marked column, and `KeyError` on a marked column without a name. */
  function KeyNames(cols: seq<Column>, kind: KeyKind): (r: Result<seq<string>>)
    ensures r.Success? <==> Named(cols, kind)
    ensures r.Failure? ==> r.error == KeyError("name")
    ensures r.Success? ==> |r.value| == CountMarked(cols, kind)
    ensures r.Success? ==> forall n :: n in r.value <==> HasKey(cols, kind, n)
  {
    if |cols| == 0 then Success([])
    else
      NamedAndHasKeyCons(cols, kind);
      var rest := KeyNames(cols[1..], kind);
      if !Marked(cols[0], kind) then rest
      else
        match cols[0].name
        case None => Failure(KeyError("name"))
        case Some(n0) =>
          if rest.Failure? then rest else Success([n0] + rest.value)
  }

  /** Key extraction keeps the column order: the names of a concatenation are
      the names of the first part followed by those of the second. */
  lemma {:induction false} KeyNamesAppend(a: seq<Column>, b: seq<Column>, kind: KeyKind)
    requires KeyNames(a + b, kind).Success?
    ensures KeyNames(a, kind).Success? && KeyNames(b, kind).Success?
    ensures KeyNames(a + b, kind).value == KeyNames(a, kind).value + KeyNames(b, kind).value
  {
    if |a| == 0 {
      assert a + b == b;
    } else {
      assert (a + b)[1..] == a[1..] + b;
      assert (a + b)[0] == a[0];
      KeyNamesAppend(a[1..], b, kind);
    }
  }

  /** `task.parameters.get("source_to_target", [])`. */
  function Columns(p: Params): seq<Column> {
    p.sourceToTarget.GetOr([])
  }

  /** `table_keys` of `create_data_check_tasks`. */
  function TableKeys(p: Params): (r: Result<seq<string>>)
    ensures p.sourceToTarget.None? ==> r == Success([])
  {
    KeyNames(Columns(p), Primary)
  }

  /** `history_keys` of `create_data_check_tasks`. */
  function HistoryKeys(p: Params): (r: Result<seq<string>>)
    ensures p.sourceToTarget.None? ==> r == Success([])
  {
    KeyNames(Columns(p), History)
  }

  /** The dataset the checks query: the task's own `destination_dataset`, else
      the pipeline's `dataset_publish`, else `KeyError`. */
  function ResolveDataset(p: Params, props: Properties): (r: Result<string>)
    ensures r.Success? <==> p.destinationDataset.Some? || props.datasetPublish.Some?
    ensures p.destinationDataset.Some? ==> r.value == p.destinationDataset.value
    ensures p.destinationDataset.None? && props.datasetPublish.Some? ==> r.value == props.datasetPublish.value
    ensures r.Failure? ==> r.error == KeyError("dataset_publish")
  {
    match p.destinationDataset
    case Some(d) => Success(d)
    case None =>
      match props.datasetPublish
      case Some(d) => Success(d)
      case None => Failure(KeyError("dataset_publish"))
  }

  const ROW_COUNT_SUFFIX := "_data_check_row_count"
  const DUPLICATE_SUFFIX := "_data_check_duplicate_records"
  const OPEN_HISTORY_SUFFIX := "_data_check_open_history_items"
  const DUPLICATE_SQL := "sql/data_check_duplicate_records.sql"
  const OPEN_HISTORY_SQL := "sql/data_check_open_history_items.sql"
  const KEY_SEPARATOR := ", "

  /** The query of the row-count check. */
  function RowCountSql(dataset: string, table: string): string {
    "select count(*) from " + dataset + "." + table
  }

  /** The template parameters of a key check. */
  function KeyCheckParams(dataset: string, table: string, keys: seq<string>): map<string, string> {
    map["DATASET_ID" := dataset, "FROM" := table, "KEY" := Join(keys, KEY_SEPARATOR)]
  }

  /** A synthesized DATACHECK task depending on `source` alone, with no keys
      beyond those the compiler sets. The row-count check is built without
      `params`; its default is modelled as absent. */
  function CheckTask(id: string, sql: string, params: Option<map<string, string>>, source: Task): (r: Task)
    ensures r.taskId == id && r.operator == DataCheck && r.dependencies == [source.taskId]
    ensures r.parameters.sql == Some(sql) && r.parameters.params == params
    ensures r.parameters.sourceToTarget.None? && r.parameters.blockDataCheck.None?
    ensures r.parameters.destinationDataset.None? && r.parameters.destinationTable.None?
    ensures r.parameters.targetType.None? && r.description.None?
    ensures r.parameters.rest == map[] && r.rest == map[]
  {
    Task(id, DataCheck, Params(None, None, None, None, None, Some(sql), params, map[]), [source.taskId], None, map[])
  }

  /** The configuration errors that make check inference raise. `target_type`
      is only demanded when the table has primary-key columns. */
  predicate InferenceFails(t: Task, props: Properties) {
    var p := t.parameters;
    || !Named(Columns(p), Primary)
    || !Named(Columns(p), History)
    || (p.destinationDataset.None? && props.datasetPublish.None?)
    || p.destinationTable.None?
    || (CountMarked(Columns(p), Primary) > 0 && p.targetType.None?)
  }

  /** `create_data_check_tasks`: the row-count check always, then the
      duplicate-key check when the table has primary keys, then the
      open-history-item check when it also is a HISTORY table. */
  function CreateDataCheckTasks(t: Task, props: Properties): (r: Result<seq<Task>>)
    ensures r.Failure? <==> InferenceFails(t, props)
    ensures r.Failure? && t.parameters.destinationTable.None? && Named(Columns(t.parameters), Primary)
            && Named(Columns(t.parameters), History) && ResolveDataset(t.parameters, props).Success?
        ==> r.error == KeyError("destination_table")
    ensures r.Success? ==>
      var p := t.parameters;
      var table := p.destinationTable.value;
      var dataset := ResolveDataset(p, props).value;
      && 1 <= |r.value| <= 3
      && (forall i :: 0 <= i < |r.value| ==> r.value[i].operator == DataCheck && r.value[i].dependencies == [t.taskId])
      && r.value[0].taskId == table + ROW_COUNT_SUFFIX
      && r.value[0].parameters.sql == Some(RowCountSql(dataset, table))
      && (|r.value| == 1 <==> CountMarked(Columns(p), Primary) == 0)
      && (|r.value| == 3 <==> CountMarked(Columns(p), Primary) > 0 && p.targetType == Some(HISTORY))
      && (|r.value| >= 2 ==>
            && r.value[1].taskId == table + DUPLICATE_SUFFIX
            && r.value[1].parameters.sql == Some(DUPLICATE_SQL)
            && r.value[1].parameters.params == Some(KeyCheckParams(dataset, table, TableKeys(p).value)))
      && (|r.value| == 3 ==>
            && r.value[2].taskId == table + OPEN_HISTORY_SUFFIX
            && r.value[2].parameters.sql == Some(OPEN_HISTORY_SQL)
            && r.value[2].parameters.params == Some(KeyCheckParams(dataset, table, HistoryKeys(p).value)))
  {
    var p := t.parameters;
    var tableKeys :- TableKeys(p);
    var historyKeys :- HistoryKeys(p);
    var dataset :- ResolveDataset(p, props);
    var table :- match p.destinationTable
      case Some(d) => Success(d)
      case None => Failure(KeyError("destination_table"));
    var rowCount := CheckTask(table + ROW_COUNT_SUFFIX, RowCountSql(dataset, table), None, t);
    if |tableKeys| == 0 then
      Success([rowCount])
    else
      var duplicates := CheckTask(table + DUPLICATE_SUFFIX, DUPLICATE_SQL,
                                  Some(KeyCheckParams(dataset, table, tableKeys)), t);
      var targetType :- match p.targetType
        case Some(tt) => Success(tt)
        case None => Failure(KeyError("target_type"));
      if targetType == HISTORY then
        var openHistory := CheckTask(table + OPEN_HISTORY_SUFFIX, OPEN_HISTORY_SQL,
                                     Some(KeyCheckParams(dataset, table, historyKeys)), t);
        Success([rowCount, duplicates, openHistory])
      else
        Success([rowCount, duplicates])
  }

  /** A row-count check: with `dataset_publish = "pub_ds"`,
      table `dim_x` and no `destination_dataset`, the query is
      `select count(*) from pub_ds.dim_x`. */
  lemma RowCountExample(t: Task, props: Properties)
    requires t.parameters.destinationTable == Some("dim_x")
    requires t.parameters.destinationDataset.None?
    requires props.datasetPublish == Some("pub_ds")
    requires !InferenceFails(t, props)
    ensures CreateDataCheckTasks(t, props).value[0].parameters.sql == Some("select count(*) from pub_ds.dim_x")
  {
    assert RowCountSql("pub_ds", "dim_x") == "select count(*) from pub_ds.dim_x";
  }

  /** A duplicate-key check: primary keys `id` and `region`
      give the `KEY` parameter `"id, region"`. */
  lemma DuplicateKeyExample(t: Task, props: Properties)
    requires t.parameters.destinationTable == Some("dim_y")
    requires TableKeys(t.parameters) == Success(["id", "region"])
    requires !InferenceFails(t, props)
    ensures CreateDataCheckTasks(t, props).value[1].parameters.params.value["KEY"] == "id, region"
  {
  }
}

=== FILE: common.dfy ===
/** Shared wrappers: an optional value for dictionary keys that may be absent,
    and a failure-compatible result carrying the Python exception a step raises. */
module Common {

  /** A dictionary entry that is either absent (`None`) or present with a value. */
  datatype Option<+T> = None | Some(value: T) {

    /** The present value, or `default` when the key is absent (Python's `dict.get(key, default)`). */
    function GetOr(default: T): T {
      match this
      case Some(v) => v
      case None => default
    }
  }

  /** The exception a Python step raises; the compiler never catches any of them. */
  datatype Error =
    | KeyError(key: string)        // `d[key]` on a dictionary without `key`
    | TypeError(message: string)   // e.g. iterating `None`, `len(None)`
    | ValueError(message: string)  // raised explicitly by the string helpers

  /** Either the value a step returns or the exception it raises. */
  datatype Result<+T> = Success(value: T) | Failure(error: Error) {

    predicate IsFailure() {
      Failure?
    }

    function PropagateFailure<U>(): Result<U>
      requires Failure?
    {
      Failure(error)
    }

    function Extract(): T
      requires Success?
    {
      value
    }
  }
}

=== FILE: helper.dfy ===
/** The null-tolerant string predicates of `lib/helper.py`. Their argument is
    any Python value: `None`, a `str`, or anything else, which they reject. */
module Helper {
  import opened Common
  import opened Text

  /** A Python value as these helpers see it. */
  datatype PyValue = Null | Str(s: string) | Other

  /** The message of the `ValueError` both predicates raise on a non-string,
      up to the ` (supplied type ...).` suffix naming the value's Python type,
      which the model does not represent. */
  const NotAString := "Input must be of type Str"

  /** `isnullorwhitespace`: `None` is blank, a string is blank when it is empty
      or whitespace only, and any other value raises `ValueError`. */
  function IsNullOrWhitespace(v: PyValue): (r: Result<bool>)
    ensures v.Null? ==> r == Success(true)
    ensures v.Str? ==> r == Success(AllWhitespace(v.s))
    ensures v.Other? ==> r.Failure? && r.error.ValueError?
  {
    match v
    case Null => Success(true)
    case Other => Failure(ValueError(NotAString))
    case Str(s) =>
      StripEmptyIffAllWhitespace(s);
      Success(|s| == 0 || |Strip(s)| == 0)
  }

  /** `isnullorempty`: unlike its sibling, `None` is NOT reported; on strings
      it is the same whitespace test, not an emptiness test. */
  function IsNullOrEmpty(v: PyValue): (r: Result<bool>)
    ensures v.Null? ==> r == Success(false)
    ensures v.Str? ==> r == IsNullOrWhitespace(v) && r == Success(AllWhitespace(v.s))
    ensures v.Other? ==> r.Failure? && r.error.ValueError?
  {
    match v
    case Null => Success(false)
    case Other => Failure(ValueError(NotAString))
    case Str(s) =>
      StripEmptyIffAllWhitespace(s);
      Success(|s| == 0 || |Strip(s)| == 0)
  }

  /** A value that `isnullorwhitespace` accepts and reports as not blank. */
  predicate Filled(v: PyValue) {
    v.Str? && !AllWhitespace(v.s)
  }

  /** `ifnull(s, d)`: `d` when `s` is blank, `s` itself otherwise; the check on
      `s` raises for a non-string, and then so does `ifnull`. A filled default
      makes the result filled. */
  function IfNull(v: PyValue, default: PyValue): (r: Result<PyValue>)
    ensures IsNullOrWhitespace(v) == Success(true) ==> r == Success(default)
    ensures IsNullOrWhitespace(v) == Success(false) ==> r == Success(v)
    ensures IsNullOrWhitespace(v).Failure? ==> r.Failure? && r.error == IsNullOrWhitespace(v).error
    ensures r.Success? && Filled(default) ==> Filled(r.value)
  {
    var blank :- IsNullOrWhitespace(v);
    if blank then Success(default) else Success(v)
  }

  /** Applying `ifnull` twice with the same string default changes nothing. */
  lemma IfNullIdempotent(v: PyValue, default: PyValue)
    requires default.Str?
    requires IfNull(v, default).Success?
    ensures IfNull(IfNull(v, default).value, default) == IfNull(v, default)
  {
    if !v.Null? && !AllWhitespace(v.s) {
      assert IfNull(v, default) == Success(v);
    } else {
      assert IfNull(v, default) == Success(default);
    }
  }
}

=== FILE: tabletask.dfy ===
/** Table-task materialisation (`create_table_task`): strip the audit columns
    from the column list the table's SQL is generated from, and emit the
    descriptor line the job script template consumes verbatim. */
module TableTask {
  import opened Common
  import opened Text
  import opened Tasks

  /** The audit columns the warehouse fills itself. */
  const AUDIT_COLUMNS: seq<string> := ["dw_created_dt", "dw_last_modified_dt"]

  /** `field.get("name") in [...]`: a column without a name is never an audit column. */
  predicate IsAuditColumn(c: Column) {
    c.name.Some? && c.name.value in AUDIT_COLUMNS
  }

  /** The number of audit columns in `cols`. */
  function CountAudit(cols: seq<Column>): nat {
    if |cols| == 0 then 0
    else (if IsAuditColumn(cols[0]) then 1 else 0) + CountAudit(cols[1..])
  }

  /** The filtering comprehension: every non-audit column and nothing else
      remains, and exactly as many columns disappear as there were audit columns. */
  function StripAuditColumns(cols: seq<Column>): (r: seq<Column>)
    ensures forall c :: c in r <==> c in cols && !IsAuditColumn(c)
    ensures |r| + CountAudit(cols) == |cols|
  {
    if |cols| == 0 then []
    else if IsAuditColumn(cols[0]) then StripAuditColumns(cols[1..])
    else [cols[0]] + StripAuditColumns(cols[1..])
  }

  /** Stripping keeps the column order: it distributes over concatenation. */
  lemma {:induction false} StripAuditColumnsAppend(a: seq<Column>, b: seq<Column>)
    ensures StripAuditColumns(a + b) == StripAuditColumns(a) + StripAuditColumns(b)
  {
    if |a| == 0 {
      assert a + b == b;
    } else {
      assert (a + b)[1..] == a[1..] + b;
      assert (a + b)[0] == a[0];
      StripAuditColumnsAppend(a[1..], b);
      var rest := StripAuditColumns(a[1..]);
      if !IsAuditColumn(a[0]) {
        assert ([a[0]] + rest) + StripAuditColumns(b) == [a[0]] + (rest + StripAuditColumns(b));
      }
    }
  }

  /** A column list without audit columns is left exactly as it is; in
      particular stripping twice is stripping once. */
  lemma {:induction false} StripAuditColumnsIdentity(cols: seq<Column>)
    requires forall i :: 0 <= i < |cols| ==> !IsAuditColumn(cols[i])
    ensures StripAuditColumns(cols) == cols
  {
    if |cols| > 0 {
      StripAuditColumnsIdentity(cols[1..]);
    }
  }

  lemma StripAuditColumnsIdempotent(cols: seq<Column>)
    ensures StripAuditColumns(StripAuditColumns(cols)) == StripAuditColumns(cols)
  {
    var r := StripAuditColumns(cols);
    assert forall i :: 0 <= i < |r| ==> r[i] in r;
    StripAuditColumnsIdentity(r);
  }

  /** The trailer of every descriptor line: a quote, the flag field `Y`, a
      quote and a backslash (the shell line continuation). */
  const DESCRIPTOR_TRAILER := "'|Y'\\"

  /** The descriptor line of a task, `UPPER(id)|id'|Y'\`: the upper-cased id,
      a bar, the id itself at a position fixed by its length, then the trailer. */
  function Descriptor(taskId: string): (r: string)
    ensures |r| == 2 * |taskId| + 1 + |DESCRIPTOR_TRAILER|
    ensures forall k :: 0 <= k < |taskId| ==> r[k] == UpperChar(taskId[k])
    ensures r[|taskId|] == '|'
    ensures r[|taskId| + 1 .. 2 * |taskId| + 1] == taskId
    ensures r[2 * |taskId| + 1 ..] == DESCRIPTOR_TRAILER
  {
    Upper(taskId) + "|" + taskId + DESCRIPTOR_TRAILER
  }

  /** Reads the task id back out of a descriptor line. The upper-cased id has
      the id's length, so the id's position follows from the line's length. */
  function ParseDescriptor(line: string): (r: Option<string>)
    ensures r.Some? ==> Descriptor(r.value) == line
  {
    if |line| < |DESCRIPTOR_TRAILER| + 1 || (|line| - |DESCRIPTOR_TRAILER| - 1) % 2 != 0 then None
    else
      var n := (|line| - |DESCRIPTOR_TRAILER| - 1) / 2;
      var id := line[n + 1 .. 2 * n + 1];
      if Descriptor(id) == line then Some(id) else None
  }

  /** The descriptor line determines its task id: parsing recovers it. */
  lemma ParseDescriptorRoundTrip(taskId: string)
    ensures ParseDescriptor(Descriptor(taskId)) == Some(taskId)
  {
    var line := Descriptor(taskId);
    var n := |taskId|;
    assert |line| == 2 * n + 1 + |DESCRIPTOR_TRAILER|;
    assert line[n + 1 .. 2 * n + 1] == taskId;
  }

  /** Distinct tasks get distinct descriptor lines. */
  lemma DescriptorInjective(a: string, b: string)
    requires Descriptor(a) == Descriptor(b)
    ensures a == b
  {
    ParseDescriptorRoundTrip(a);
    ParseDescriptorRoundTrip(b);
  }

  /** What `create_table_task` leaves behind: the task with its (possibly
      filtered) parameters, and the descriptor line it returns. */
  datatype Materialized = Materialized(task: Task, descriptor: string)

  /** `create_table_task`. `dataset_staging` must be present. Without an `sql`
      parameter the audit columns are dropped from `source_to_target`, which
      must then be present, and the SQL file is generated from the result (that
      generator is an external effect and not modelled). The descriptor line
      does not depend on the parameters at all. */
  function CreateTableTask(t: Task, props: Properties): (r: Result<Materialized>)
    ensures r.Success? <==> props.datasetStaging.Some? && (t.parameters.sql.Some? || t.parameters.sourceToTarget.Some?)
    ensures props.datasetStaging.None? ==> r == Failure(KeyError("dataset_staging"))
    ensures r.Success? ==> ParseDescriptor(r.value.descriptor) == Some(t.taskId)
    ensures r.Success? ==> r.value.descriptor == Descriptor(t.taskId)
    ensures r.Success? && t.parameters.sql.Some? ==> r.value.task == t
    ensures r.Success? && t.parameters.sql.None? ==>
      && r.value.task.parameters.sourceToTarget.Some?
      && var cols := t.parameters.sourceToTarget.value;
         var cols' := r.value.task.parameters.sourceToTarget.value;
         && r.value.task == t.(parameters := t.parameters.(sourceToTarget := Some(cols')))
         && cols' == StripAuditColumns(cols)
         && (forall c :: c in cols' <==> c in cols && !IsAuditColumn(c))
         && |cols'| + CountAudit(cols) == |cols|
  {
    var _ :- match props.datasetStaging
      case Some(d) => Success(d)
      case None => Failure(KeyError("dataset_staging"));
    var t' :-
      if t.parameters.sql.Some? then Success(t)
      else match t.parameters.sourceToTarget
        case None => Failure(TypeError("'NoneType' object is not iterable"))
        case Some(cols) =>
          Success(t.(parameters := t.parameters.(sourceToTarget := Some(StripAuditColumns(cols)))));
    ParseDescriptorRoundTrip(t.taskId);
    Success(Materialized(t', Descriptor(t.taskId)))
  }
}

=== FILE: tasks.dfy ===
/** The task model: one pipeline configuration, its tasks, their parameter
    dictionaries and the column metadata inside them. A dictionary key the
    configuration may omit is an `Option` field; `None` means "key absent". */
module Tasks {
  import opened Common

  /** The `operator` of a task. The compiler only distinguishes the three
      named kinds; every other spelling is `OtherOperator`. A synthesized
      check's `TaskOperator.DATACHECK` is taken to be rendered as the string
      `"DATACHECK"`, the same value as a configuration entry spelling it. */
  datatype Operator = CreateTable | TruncateTable | DataCheck | OtherOperator(name: string)

  /** One entry of `source_to_target`: its `name` (if given), whether a `pk`
      key and an `hk` key are present (their values are never read), and the
      rest of its mapping metadata, carried along untouched. `mapping` never
      holds the keys `name`, `pk` or `hk`; those live in the other fields. */
  datatype Column = Column(name: Option<string>, pk: bool, hk: bool, mapping: map<string, string>)

  /** A task's `parameters` dictionary: the keys the compiler reads, and
      `rest`, every other key with its value, which the compiler never reads
      but which takes part in comparing two tasks. `blockDataCheck` is
      `Some(b)` when `block_data_check` is present, with `b` its Python
      truthiness. `sql` and `params` are the two fields of a data-check
      parameter. `rest` never holds a key that has a field of its own. */
  datatype Params = Params(
    sourceToTarget: Option<seq<Column>>,
    destinationDataset: Option<string>,
    destinationTable: Option<string>,
    targetType: Option<string>,
    blockDataCheck: Option<bool>,
    sql: Option<string>,
    params: Option<map<string, string>>,
    rest: map<string, string>)

  /** A task as read from `config["tasks"]`, or as synthesized by check
      inference. `rest` holds the task dictionary's other keys, as in `Params`,
      and never `task_id`, `operator`, `parameters`, `dependencies` or
      `description`. */
  datatype Task = Task(
    taskId: string,
    operator: Operator,
    parameters: Params,
    dependencies: seq<string>,
    description: Option<string>,
    rest: map<string, string>)

  /** The pipeline-wide `properties` dictionary. */
  datatype Properties = Properties(
    datasetStaging: Option<string>,
    datasetPublish: Option<string>,
    prefix: Option<string>)

  /** The whole configuration handed to `builddags`. */
  datatype Config = Config(name: Option<string>, properties: Properties, tasks: seq<Task>)

  /** The `target_type` value that marks a history table. */
  const HISTORY := "HISTORY"

  /** A task is a data-check inference candidate: a CREATETABLE task whose
      `block_data_check` is absent or falsy. */
  predicate InfersChecks(t: Task) {
    t.operator == CreateTable && t.parameters.blockDataCheck != Some(true)
  }

  /** The number of CREATETABLE tasks in `ts`. */
  function CountCreateTable(ts: seq<Task>): nat {
    if |ts| == 0 then 0
    else (if ts[0].operator == CreateTable then 1 else 0) + CountCreateTable(ts[1..])
  }

  lemma {:induction false} CountCreateTableAppend(a: seq<Task>, b: seq<Task>)
    ensures CountCreateTable(a + b) == CountCreateTable(a) + CountCreateTable(b)
  {
    if |a| == 0 {
      assert a + b == b;
    } else {
      assert (a + b)[1..] == a[1..] + b;
      CountCreateTableAppend(a[1..], b);
    }
  }

  lemma {:induction false} CountCreateTableNone(ts: seq<Task>)
    requires forall i :: 0 <= i < |ts| ==> ts[i].operator != CreateTable
    ensures CountCreateTable(ts) == 0
  {
    if |ts| > 0 {
      CountCreateTableNone(ts[1..]);
    }
  }
}

=== FILE: text.dfy ===
/** The string primitives the compiler relies on: Python's `str.strip()`,
    `str.upper()` and `str.join()`, over `string` (a sequence of code points). */
module Text {

  /** The code points Python's `str.isspace()` accepts, which are exactly the
      characters `str.strip()` with no argument removes. */
  predicate IsWhitespace(c: char) {
    var n := c as int;
    || 0x09 <= n <= 0x0D
    || 0x1C <= n <= 0x20
    || n == 0x85
    || n == 0xA0
    || n == 0x1680
    || 0x2000 <= n <= 0x200A
    || n == 0x2028
    || n == 0x2029
    || n == 0x202F
    || n == 0x205F
    || n == 0x3000
  }

  /** Every character of `s` is whitespace (vacuously true of the empty string). */
  predicate AllWhitespace(s: string) {
    forall i :: 0 <= i < |s| ==> IsWhitespace(s[i])
  }

  /** Drops the leading whitespace of `s`: the result is a suffix of `s`, what
      was dropped is all whitespace, and the result does not start with whitespace. */
  function TrimLeft(s: string): (r: string)
    ensures |r| <= |s| && r == s[|s| - |r|..]
    ensures AllWhitespace(s[..|s| - |r|])
    ensures |r| > 0 ==> !IsWhitespace(r[0])
  {
    if |s| > 0 && IsWhitespace(s[0]) then TrimLeft(s[1..]) else s
  }

  /** Drops the trailing whitespace of `s`: the result is a prefix of `s`, what
      was dropped is all whitespace, and the result does not end with whitespace. */
  function TrimRight(s: string): (r: string)
    ensures |r| <= |s| && r == s[..|r|]
    ensures AllWhitespace(s[|r|..])
    ensures |r| > 0 ==> !IsWhitespace(r[|r| - 1])
  {
    if |s| > 0 && IsWhitespace(s[|s| - 1]) then TrimRight(s[..|s| - 1]) else s
  }

  /** `r` is what `s.strip()` leaves of `s` when `s` has `a` leading
      whitespace characters: the slice of `s` from `a`, with only whitespace
      on either side of it, neither starting nor ending with whitespace. */
  predicate StrippedAt(s: string, a: nat, r: string) {
    && a + |r| <= |s|
    && r == s[a..a + |r|]
    && AllWhitespace(s[..a])
    && AllWhitespace(s[a + |r|..])
    && (|r| > 0 ==> !IsWhitespace(r[0]) && !IsWhitespace(r[|r| - 1]))
  }

  /** Python's `s.strip()`: it cuts `s` after its leading whitespace. */
  function Strip(s: string): (r: string)
    ensures StrippedAt(s, |s| - |TrimLeft(s)|, r)
  {
    var l := TrimLeft(s);
    var r := TrimRight(l);
    TrimmedSlice(s, l, r);
    r
  }

  /** A prefix `r` of a suffix `l` of `s`, cut off by whitespace on both sides,
      is a slice of `s` with whitespace on both sides; when `l` does not start
      and `r` does not end with whitespace, neither end of `r` is whitespace. */
  lemma TrimmedSlice(s: string, l: string, r: string)
    requires |l| <= |s| && l == s[|s| - |l|..] && AllWhitespace(s[..|s| - |l|])
    requires |l| > 0 ==> !IsWhitespace(l[0])
    requires |r| <= |l| && r == l[..|r|] && AllWhitespace(l[|r|..])
    requires |r| > 0 ==> !IsWhitespace(r[|r| - 1])
    ensures StrippedAt(s, |s| - |l|, r)
  {
    var a := |s| - |l|;
    SliceOfSlice(s, a, r);
    if |r| > 0 {
      assert r[0] == l[0];
    }
  }

  /** A prefix `r` of the suffix of `s` from `a` is the slice of `s` from `a`,
      and what follows it in the suffix is what follows it in `s`. */
  lemma SliceOfSlice(s: string, a: nat, r: string)
    requires a <= |s| && |r| <= |s| - a && r == s[a..][..|r|]
    ensures a + |r| <= |s| && r == s[a..a + |r|] && s[a..][|r|..] == s[a + |r|..]
  {
  }

  /** `s.strip()` is empty exactly when `s` is empty or consists of whitespace only. */
  lemma StripEmptyIffAllWhitespace(s: string)
    ensures |Strip(s)| == 0 <==> AllWhitespace(s)
  {
    var l := TrimLeft(s);
    if |l| == 0 {
      assert s[..|s|] == s;
    } else {
      assert !IsWhitespace(l[0]);
      assert !IsWhitespace(s[|s| - |l|]);
    }
  }

  /** Python's `str.upper()` on a single character, for the ASCII letters. */
  function UpperChar(c: char): char {
    if 'a' <= c <= 'z' then (c as int - 32) as char else c
  }

  /** Python's `s.upper()`: the same length, each character upper-cased. */
  function Upper(s: string): (r: string)
    ensures |r| == |s|
    ensures forall i :: 0 <= i < |s| ==> r[i] == UpperChar(s[i])
  {
    seq(|s|, i requires 0 <= i < |s| => UpperChar(s[i]))
  }

  /** Python's `sep.join(xs)`. */
  function Join(xs: seq<string>, sep: string): (r: string)
    ensures |xs| == 0 ==> r == ""
    ensures |xs| == 1 ==> r == xs[0]
    ensures |xs| > 0 ==> xs[0] <= r
    ensures |xs| > 1 ==> xs[0] + sep <= r
  {
    if |xs| == 0 then ""
    else if |xs| == 1 then xs[0]
    else xs[0] + sep + Join(xs[1..], sep)
  }

  /** Joining one more element after a non-empty list puts exactly one separator
      before it; with `Join([]) == ""` and `Join([x]) == x` this fixes `Join`
      as the left-to-right separator-interleaved concatenation. */
  lemma {:induction false} JoinSnoc(xs: seq<string>, x: string, sep: string)
    requires |xs| > 0
    ensures Join(xs + [x], sep) == Join(xs, sep) + sep + x
  {
    if |xs| == 1 {
      assert xs + [x] == [xs[0], x];
    } else {
      assert (xs + [x])[1..] == xs[1..] + [x];
      JoinSnoc(xs[1..], x, sep);
    }
  }

  /** The length of a join: the elements plus one separator between each neighbouring pair. */
  function TotalLength(xs: seq<string>): nat {
    if |xs| == 0 then 0 else |xs[0]| + TotalLength(xs[1..])
  }

  lemma {:induction false} JoinLength(xs: seq<string>, sep: string)
    requires |xs| > 0
    ensures |Join(xs, sep)| == TotalLength(xs) + (|xs| - 1) * |sep|
  {
    if |xs| > 1 {
      JoinLength(xs[1..], sep);
    }
  }
}
